=== FILE: README.md ===
# System information dashboard plugin — Dafny model

This project models the deterministic core of a chat-bot plugin that renders
a system status dashboard as one image: the fixed layout geometry of the
dashboard (canvas, two rows of cards, icons, donut charts, legend dots,
label/value rows and their dividers), the two uptime formatters, the bot
information record with its per-field "未知" (unknown) fallback, the lazy
font loader, and the CPU model label helper. Pixels, metrics collection and
the clock are abstracted away: a drawing is modelled as the sequence of
drawing calls it makes, positions are exact reals, text extents come from an
abstract `Measure` function, and file checks are abstract oracles.

Modules:

- `Geometry` — points and boxes, `Within` and `Apart`.
- `Drawing` — the drawing primitives and the nested helpers of the renderer:
  `Icon`, `Donut`, `InfoLine`/`InfoRows`, `Card`.
- `Dashboard` — canvas and card constants, row padding, the five cards,
  `Render` (header followed by the five cards), containment and separation.
- `Duration` — system uptime (days, hours, minutes) and bot uptime (hours,
  minutes, seconds of `delta.seconds`), their labels and readers.
- `BotInfo` — the five-field bot record built from fallible sources.
- `Fonts` — `_load_fonts` and `_get_font` as a small state machine.
- `CpuLabel` — `split('@')[0].strip()` on the CPU model string.
- `Decimal` — Python's `str(int)` and a reader for it, used to show that the
  labels can be read back exactly.
- `Wrappers` — the `Option` type used for values whose source may raise.

The code does not clamp percentages before drawing a donut (main.py:181):
the active arc always ends at `-90 + 3.6 * p`, so a value above 100 sweeps
past the full circle; `Drawing.DonutBoundaries` shows the sweep for 150
percent.

Every coordinate in the source is a multiple of 0.5, so the reals used here
are exactly the values Python's floats hold (padding 37.5 and 50).

## Model

| member | source | states |
|---|---|---|
| `Dashboard.EvenSpacing` | main.py:200-206 | with padding `(W - n*w)/(n+1)` and card `i` at `padding*(i+1) + w*i`, the left margin, every gap between neighbours and the right margin all equal the padding |
| `Dashboard.RowNumbers` | main.py:200-206 | top padding is 37.5 with cards at 37.5, 425, 812.5; bottom padding is 50 with cards at 50, 625; the bottom row starts at 180+480+40 = 700 and ends at 1030, within the 1050 canvas |
| `Dashboard.CardBoxes` | main.py:200-208 | all five card panels lie on the 1200×1050 canvas and no two panels share a point |
| `Dashboard.HeaderApart` | main.py:199-208 | the header icon's 30×40 box at (60, 58) lies on the canvas and touches no card panel |
| `Dashboard.TopCard` | main.py:202-204 | a top card's active arc is the 160×160 box from (x+95, y+90) to (x+255, y+250), i.e. `[cx+65, cy, cx+225, cy+160]` from the content origin, in the card's accent colour, sweeping 3.6 degrees per percent; its last shape is the second row's divider from (x+30, y+428) to (x+320, y+428) |
| `Dashboard.TopCardWithin` | main.py:202-204 | every shape with an ink box that a top card draws (panel, icon, rings, legend dots, dividers) stays inside its 350×480 panel, wherever the card is placed; texts have no ink box, so an over-wide value (`Drawing.InfoLineRightAligned`) is not covered |
| `Dashboard.BottomCard` | main.py:206-208 | a bottom card with up to five rows keeps every shape with an ink box (panel, icon, dividers) inside its 525×330 panel; with five rows its last shape is the fifth divider, from (x+30, y+328) to (x+495, y+328) |
| `Dashboard.TopCardRightAligned` | main.py:202-204 | both value texts of a top card end exactly 30 inside the card's right edge, 250 and 300 below the content origin, for every text measure |
| `Dashboard.BottomCardRightAligned` | main.py:207-208 | value `j` of a bottom card sits 50·j below the content origin and ends exactly 30 inside the card's right edge, for every text measure |
| `Dashboard.PanelWithin` | main.py:202-208 | each of the five cards, with its real titles, icons and rows, keeps every shape with an ink box (panel, icon, arcs, dots, dividers) inside its own panel; texts have no ink box, and a value wider than its row starts left of the row (`Drawing.InfoLineRightAligned`), possibly left of x = 0 |
| `Dashboard.PanelsWithinCanvas` | main.py:202-208 | every shape with an ink box drawn by the first k cards lies on the canvas |
| `Dashboard.CardsInkApart` | main.py:202-208 | any inked shape of one card and any inked shape of another card are apart: no two cards' ink meets |
| `Dashboard.Header` | main.py:199 | the header is the system icon at (60, 58), then the bold size-36 title "系统信息面板" at (110, 60), then the "生成时间: " line carrying the timestamp at (110, 110); all of its ink lies in the 30×40 icon box at (60, 58) |
| `Dashboard.Render` | main.py:199-208 | every shape with an ink box (panels, icons, arcs, dots, dividers) of the whole overlay lies on the canvas; texts are not covered, and an over-wide value can start left of x = 0 |
| `Drawing.Icon` | main.py:164-175 | each of the five icon glyphs draws something and stays inside the 30×40 box at its position (so a card icon spans [x+30, x+60]×[y+28, y+68]) |
| `Drawing.Card` | main.py:192-197 | the content origin is (x+30, y+90), the first shape is the radius-20 panel over the card box, and panel and icon stay within the card box whenever the card is at least 60×68 (the title is text and has no ink box) |
| `Drawing.InfoLine` | main.py:186-190 | the label starts at the row origin, the value is drawn on the same line and ends at `x_start + width` for every measure, and the divider runs from `x_start` to `x_start + width` 38 below the row |
| `Drawing.InfoRows` | main.py:202-208 | rows drawn 50 apart produce three shapes each; row k's label sits at (x, y + 50k) and its divider spans the row width at y + 50k + 38 |
| `Drawing.Donut` | main.py:177-184 | the track arc covers 0..360, the active arc starts at -90 and sweeps exactly 3.6·p with no clamp, both on the radius-80 box, and the label is centred on the ring centre for any measured extent |
| `Drawing.DonutBoundaries` | main.py:180-181 | p = 0 gives an empty active arc, p = 100 ends at 270, and p = 150 ends at 450 since nothing clamps |
| `Drawing.InfoLineRightAligned` | main.py:186-190 | a value's right edge equals `x_start + width` for every measure, and the value starts inside the row exactly when its measured width fits |
| `Drawing.InfoRowsWithin` | main.py:207-208 | rows 50 apart keep every divider (38 below its row) inside a box that spans the row width and reaches the last divider |
| `Drawing.InfoRowsRightAligned` | main.py:207-208 | value `k` of a run of rows is drawn 50·k below the first and ends on the common right edge |
| `Duration.SystemUptime` | main.py:96 | for elapsed `t`: hours < 24, minutes < 60 and `86400d + 3600h + 60m <= t < 86400d + 3600h + 60m + 60` |
| `Duration.SystemUptimeUnique` | main.py:96 | any days/hours/minutes with in-range hours and minutes whose minute contains `t` is the decomposition |
| `Duration.DayClockTextRoundTrip` | main.py:96 | any days/hours/minutes printed as `"{d}天 {h}小时 {m}分钟"`, negative days included, read back to the same fields |
| `Duration.SystemUptimeLabel` | main.py:96 | the system uptime label reads back to the days/hours/minutes decomposition of the elapsed time |
| `Duration.SystemUptimeLabelSameMinute` | main.py:96 | two elapsed times print the same system uptime label exactly when they fall in the same minute |
| `Duration.BotUptime` | main.py:116-118 | the two `divmod`s give `3600h + 60m + s = t mod 86400` with s < 60, m < 60, h < 24 |
| `Duration.BotUptimeDropsDays` | main.py:116-118 | adding whole days to the running time does not change the bot clock |
| `Duration.BotUptimeMatchesSystemUptime` | main.py:96-118 | for the same elapsed time the bot clock shows the system decomposition's hours and minutes, and days·86400 plus the bot clock's seconds is the elapsed time |
| `Duration.ClockTextRoundTrip` | main.py:119 | any hours/minutes/seconds printed as `"{h}小时{m}分{s}秒"` read back to the same fields |
| `Duration.BotUptimeLabel` | main.py:116-119 | the bot uptime label reads back to the hours/minutes/seconds of the elapsed time's `seconds` part |
| `Duration.BotUptimeLabelModDay` | main.py:116-119 | two running times print the same bot uptime label exactly when they agree modulo one day |
| `Decimal.ShowNat` | main.py:119 | a non-negative integer prints as at least one digit with no leading zero |
| `Decimal.ValueOfShowNat` | main.py:119 | the printed digits denote the number printed |
| `BotInfo.Mebibytes` | main.py:124 | `rss >> 20` is the number of whole mebibytes: `m·2^20 <= rss < (m+1)·2^20` |
| `BotInfo.CountOrZero` | main.py:132 | `count or 0` is 0 exactly when the count is `None` or 0, and otherwise is the count itself |
| `BotInfo.Collect` | main.py:112-135 | each of the five fields is "未知" exactly when its own source raised |
| `BotInfo.CollectReadsBack` | main.py:112-133 | reading the record back gives, field by field, the sentinel for a failed source and otherwise that source's value (bot clock, mebibytes, plugin and platform counts, `count or 0`) |
| `BotInfo.FieldsIsolated` | main.py:115-133 | a field depends on its own source alone, so one failing source changes no other field |
| `BotInfo.AllSourcesFail` | main.py:112-135 | when every source raises the record is all "未知" |
| `BotInfo.NoMessagesShowsZero` | main.py:130-132 | a message count of `None` or 0 shows as "0 条" |
| `Fonts.FirstUsable` | main.py:61-70 | the index returned is the first candidate that both exists and loads; none is returned exactly when no candidate does |
| `Fonts.LoadFonts` | main.py:52-74 | afterwards fonts are loaded; a loaded state is returned unchanged; otherwise the font is the first usable candidate at size 28 and index 0, and the built-in font exactly when no candidate is usable; main and bold are the same font |
| `Fonts.LoadFontsIdempotent` | main.py:54 | a second load changes nothing, whatever the file system says by then |
| `Fonts.FirstUsableIgnoresLater` | main.py:61-68 | the choice depends only on candidates up to the first usable one |
| `Fonts.Variant` | main.py:80-81 | a missing font or the built-in font has no `font_variant` (the `AttributeError` case); a TrueType font reopens its file, so it is resized, keeping file and face index, exactly when that file is still present and loads, and otherwise raises |
| `Fonts.GetFont` | main.py:76-81 | the state is loaded afterwards (loading only if it was not); a TrueType font comes back at the requested size when its file is still usable, and the call raises exactly when it is not; the built-in font comes back as it is |
| `Fonts.FirstLookupSucceeds` | main.py:76-81 | a lookup that performs the lazy load never raises: the file it resizes is the one the same file system has just accepted |
| `Fonts.BoldIsMain` | main.py:64-81 | asking for bold returns the same font as asking for regular |
| `Fonts.ValidPreserved` | main.py:43-81 | loading and lookups keep "loaded implies both fonts set and equal" |
| `Fonts.UnloadedValid` | main.py:43-45 | the freshly constructed state is unloaded and satisfies that invariant |
| `CpuLabel.BeforeAt` | main.py:202 | `split('@')[0]` is a prefix without '@', followed in the input by '@' unless it is the whole input |
| `CpuLabel.Strip` | main.py:202 | `strip()` returns a middle slice that neither starts nor ends with white space, with only white space cut on either side |
| `CpuLabel.CpuModelLabel` | main.py:202 | the CPU label contains no '@' and has no surrounding white space |
| `CpuLabel.CpuModelLabelLocated` | main.py:202 | the CPU label is the text before the first '@' with only surrounding white space removed |
| `CpuLabel.CpuModelLabelIdempotent` | main.py:202 | labelling a label changes nothing |

## Left out

- Metric collection through psutil and platform, and `datetime.now()` (main.py:83-108, 116): host I/O and the clock. Elapsed times are whole-second `int` inputs, so the microseconds of a `timedelta` are dropped. The other machine fields are pre-formatted strings in `Dashboard.SystemInfo`. This includes the OS label `release().split('.')[0]` and the choice between `cpu_info` and `processor()`.
- The `.1f` formatting of percentages, MB/GB labels and the timestamp: floating-point formatting. The donut label formatter is a parameter of `Render`.
- Pillow's rasterisation, `textbbox` and glyph shapes: foreign library calls. Only coordinates are modelled. Text has no ink box, and its extents come from the `Measure` parameter.
- Percentages and arc angles are doubles in the source: `-90 + p * 3.6` is rounded (42.7 * 3.6 is 153.72000000000003). The model uses exact reals, so it drops that rounding of the sweep and of the stop angle.
- Pixel rounding of strokes: a line's ink is its end points widened by half its width across its direction, and outlines are drawn inside their box.
- Background image loading and resizing, the gradient loop with `int()` truncation, the error fill, `alpha_composite` and PNG encoding (main.py:143-158, 210-214): image processing and encoding.
- The font handle that `draw_text` fetches through `_get_font` for every text is not threaded through `Render`. Texts record their size and boldness. Font state is modelled on its own in `Fonts`.
- `Fonts.Variant`: the built-in font is modelled as the bitmap font, which has no `font_variant`. Recent Pillow versions return a scalable built-in font, which this model does not cover.
- `Fonts.GetFont`: the `OSError` a vanished font file raises in `font_variant` escapes `_get_font` (main.py:81 catches only `AttributeError`) and so the whole render; the model returns `None` for it and does not thread that failure through `Dashboard.Render`, whose texts carry no font handle.
- `Dashboard.Render`: models only the path on which every text call succeeds. With the bitmap built-in font (when no candidate font loads), Pillow's text calls raise on the CJK labels, starting with the title at main.py:199, so the render fails and the command replies with an error (main.py:229-231) instead of an image; `Render` has no font parameter and always yields the full dashboard.
- `draw_icon` dispatches on a string and draws nothing for an unknown name. The model's `IconName` has only the five names the renderer uses.
- `str(value)` in `draw_info_line`: every value passed is already a string.
- The `sysinfo` command handler, the temporary file and its cleanup, and the chat transport (main.py:216-235). Also left out: `initialize`/`terminate`, logging, and the Windows console re-encoding (main.py:14-28). These are I/O and framework glue.

=== FILE: bot_info.dfy ===
/** The bot information record: five display strings, each preset to the
    sentinel "未知" and overwritten only when its own source answers.
    A source that raised is `None`; the record is built in the order the
    plugin fills its dictionary, one guarded step per field. */
module BotInfo {
  import opened Wrappers
  import opened Decimal
  import opened Duration

  const Unknown: string := "未知"

  /** What each collaborator returned, or `None` when it raised.
      `messages` is the database's total message count, which may itself
      be `None`. */
  datatype Sources = Sources(
    elapsed: Option<int>,
    rss: Option<nat>,
    plugins: Option<nat>,
    platforms: Option<nat>,
    messages: Option<Option<int>>)

  datatype Info = Info(
    uptime: string,
    messageCount: string,
    platforms: string,
    memUsage: string,
    plugins: string)

  /** The dictionary before any source is consulted. */
  function Initial(): Info {
    Info(Unknown, Unknown, Unknown, Unknown, Unknown)
  }

  /** `rss >> 20`: whole mebibytes. */
  function Mebibytes(rss: nat): (m: nat)
    ensures m * 1048576 <= rss < (m + 1) * 1048576
  {
    rss / 1048576
  }

  /** `count or 0`: the count when it is truthy, otherwise zero. */
  function CountOrZero(count: Option<int>): (n: int)
    ensures n == 0 <==> count.None? || count == Some(0)
    ensures n != 0 ==> count == Some(n)
  {
    match count
    case None => 0
    case Some(c) => c
  }

  function MemLabel(rss: nat): string { ShowNat(Mebibytes(rss)) + " MB" }
  function CountLabel(n: nat): string { ShowNat(n) + " 个" }
  function MessageLabel(n: int): string { Show(n) + " 条" }

  function WithUptime(info: Info, elapsed: Option<int>): Info {
    if elapsed.Some? then info.(uptime := BotUptimeLabel(elapsed.value)) else info
  }

  function WithMemUsage(info: Info, rss: Option<nat>): Info {
    if rss.Some? then info.(memUsage := MemLabel(rss.value)) else info
  }

  function WithPlugins(info: Info, plugins: Option<nat>): Info {
    if plugins.Some? then info.(plugins := CountLabel(plugins.value)) else info
  }

  function WithPlatforms(info: Info, platforms: Option<nat>): Info {
    if platforms.Some? then info.(platforms := CountLabel(platforms.value)) else info
  }

  function WithMessageCount(info: Info, messages: Option<Option<int>>): Info {
    if messages.Some? then info.(messageCount := MessageLabel(CountOrZero(messages.value))) else info
  }

  /** The whole collection: uptime, memory, plugins, platforms, messages. */
  function Collect(src: Sources): (r: Info)
    ensures r.uptime == Unknown <==> src.elapsed.None?
    ensures r.memUsage == Unknown <==> src.rss.None?
    ensures r.plugins == Unknown <==> src.plugins.None?
    ensures r.platforms == Unknown <==> src.platforms.None?
    ensures r.messageCount == Unknown <==> src.messages.None?
  {
    var i0 := Initial();
    var i1 := WithUptime(i0, src.elapsed);
    var i2 := WithMemUsage(i1, src.rss);
    var i3 := WithPlugins(i2, src.plugins);
    var i4 := WithPlatforms(i3, src.platforms);
    WithMessageCount(i4, src.messages)
  }

  // ---------------------------------------------------------------------
  // Reading the record back: the reader showing every field carries
  // exactly its own source's value and nothing else.
  // ---------------------------------------------------------------------

  /** What a field can tell about its source: nothing (sentinel) or a value. */
  datatype Seen = Sentinel | Value(n: int) | Garbled

  function ReadCount(s: string, suffix: string): Seen {
    if s == Unknown then Sentinel
    else match ReadInt(s)
      case Some((n, rest)) => if rest == suffix then Value(n) else Garbled
      case None => Garbled
  }

  lemma ReadCountLabel(n: int, suffix: string)
    requires |suffix| > 0 && suffix[0] == ' ' && suffix != Unknown
    ensures ReadCount(Show(n) + suffix, suffix) == Value(n)
  {
    ReadIntShow(n, suffix);
    assert Show(n) + suffix != Unknown by {
      if n >= 0 {
        var s := Show(n) + suffix;
        assert IsDigit(s[0]);
      } else {
        assert (Show(n) + suffix)[0] == '-';
      }
    }
  }

  /** The record as the dashboard shows it, read back field by field. */
  datatype Observed = Observed(
    uptime: Option<Clock>,
    mebibytes: Seen,
    plugins: Seen,
    platforms: Seen,
    messages: Seen)

  function Observe(info: Info): Observed {
    Observed(
      if info.uptime == Unknown then None else ReadBotUptimeLabel(info.uptime),
      ReadCount(info.memUsage, " MB"),
      ReadCount(info.plugins, " 个"),
      ReadCount(info.platforms, " 个"),
      ReadCount(info.messageCount, " 条"))
  }

  /** What the sources should show: the sentinel for a source that raised,
      otherwise its value (the clock of the bot uptime, whole mebibytes,
      counts, and `count or 0`). */
  function Expected(src: Sources): Observed {
    Observed(
      if src.elapsed.None? then None else Some(BotUptime(src.elapsed.value)),
      if src.rss.None? then Sentinel else Value(Mebibytes(src.rss.value)),
      if src.plugins.None? then Sentinel else Value(src.plugins.value),
      if src.platforms.None? then Sentinel else Value(src.platforms.value),
      if src.messages.None? then Sentinel else Value(CountOrZero(src.messages.value)))
  }

  lemma {:induction false} CollectReadsBack(src: Sources)
    ensures Observe(Collect(src)) == Expected(src)
  {
    var r := Collect(src);
    if src.elapsed.Some? {
      assert r.uptime == BotUptimeLabel(src.elapsed.value);
    }
    if src.rss.Some? {
      assert r.memUsage == Show(Mebibytes(src.rss.value)) + " MB";
      ReadCountLabel(Mebibytes(src.rss.value), " MB");
    }
    if src.plugins.Some? {
      assert r.plugins == Show(src.plugins.value) + " 个";
      ReadCountLabel(src.plugins.value, " 个");
    }
    if src.platforms.Some? {
      assert r.platforms == Show(src.platforms.value) + " 个";
      ReadCountLabel(src.platforms.value, " 个");
    }
    if src.messages.Some? {
      ReadCountLabel(CountOrZero(src.messages.value), " 条");
    }
  }

  /** One failing source spoils no other field: a field depends on its own
      source alone. */
  lemma FieldsIsolated(a: Sources, b: Sources)
    ensures a.elapsed == b.elapsed ==> Collect(a).uptime == Collect(b).uptime
    ensures a.rss == b.rss ==> Collect(a).memUsage == Collect(b).memUsage
    ensures a.plugins == b.plugins ==> Collect(a).plugins == Collect(b).plugins
    ensures a.platforms == b.platforms ==> Collect(a).platforms == Collect(b).platforms
    ensures a.messages == b.messages ==> Collect(a).messageCount == Collect(b).messageCount
  {
  }

  /** Every source raising still yields a complete record of sentinels. */
  lemma AllSourcesFail(src: Sources)
    requires src.elapsed.None? && src.rss.None? && src.plugins.None?
    requires src.platforms.None? && src.messages.None?
    ensures Collect(src) == Initial()
  {
  }

  /** A database answering `None` or `0` shows "0 条". */
  lemma NoMessagesShowsZero(src: Sources)
    requires src.messages == Some(None) || src.messages == Some(Some(0))
    ensures Collect(src).messageCount == "0 条"
  {
    assert CountOrZero(src.messages.value) == 0;
    assert ShowNat(0) == "0";
  }
}

=== FILE: cpu_label.dfy ===
/** The processor label of the CPU card: `model.split('@')[0].strip()`,
    which drops a clock-speed suffix such as "@ 3.60GHz". */
module CpuLabel {

  /** Python's `str.isspace`: the characters `strip()` removes. */
  predicate IsSpace(c: char) {
    var n := c as int;
    || (0x09 <= n <= 0x0D) || (0x1C <= n <= 0x20) || n == 0x85 || n == 0xA0
    || n == 0x1680 || (0x2000 <= n <= 0x200A) || n == 0x2028 || n == 0x2029
    || n == 0x202F || n == 0x205F || n == 0x3000
  }

  /** Position of the first `'@'`, or `|s|` when there is none. */
  function AtIndex(s: string): (k: nat)
    ensures k <= |s|
    ensures k < |s| ==> s[k] == '@'
    ensures forall i :: 0 <= i < k ==> s[i] != '@'
  {
    if |s| == 0 || s[0] == '@' then 0 else 1 + AtIndex(s[1..])
  }

  /** `s.split('@')[0]`. */
  function BeforeAt(s: string): (r: string)
    ensures r <= s
    ensures '@' !in r
    ensures r == s || s[|r|] == '@'
  {
    s[..AtIndex(s)]
  }

  /** Number of white-space characters at the front of `s`. */
  function StripFrom(s: string): (i: nat)
    ensures i <= |s|
    ensures forall k :: 0 <= k < i ==> IsSpace(s[k])
    ensures i < |s| ==> !IsSpace(s[i])
  {
    if |s| > 0 && IsSpace(s[0]) then 1 + StripFrom(s[1..]) else 0
  }

  /** Length of `s` without its trailing white space. */
  function TrailingFrom(s: string): (j: nat)
    ensures j <= |s|
    ensures forall k :: j <= k < |s| ==> IsSpace(s[k])
    ensures j > 0 ==> !IsSpace(s[j - 1])
  {
    if |s| > 0 && IsSpace(s[|s| - 1]) then TrailingFrom(s[..|s| - 1]) else |s|
  }

  /** Where the stripped text ends: after its last non-space character,
      and never before where it starts. */
  function StripTo(s: string): (j: nat)
    ensures StripFrom(s) <= j <= |s|
    ensures forall k :: j <= k < |s| ==> IsSpace(s[k])
    ensures j > StripFrom(s) ==> !IsSpace(s[j - 1])
  {
    var i := StripFrom(s);
    var t := TrailingFrom(s);
    if i == |s| then i
    else
      assert !IsSpace(s[i]);
      assert i < t;
      t
  }

  /** `strip()`: the middle part from the first to the last non-space
      character; only white space is cut on either side. */
  function Strip(s: string): (r: string)
    ensures r == s[StripFrom(s)..StripTo(s)]
    ensures forall k :: 0 <= k < StripFrom(s) ==> IsSpace(s[k])
    ensures forall k :: StripTo(s) <= k < |s| ==> IsSpace(s[k])
    ensures r == [] || (!IsSpace(r[0]) && !IsSpace(r[|r| - 1]))
  {
    s[StripFrom(s)..StripTo(s)]
  }

  /** The label drawn in the "处理器型号" row. */
  function CpuModelLabel(model: string): (r: string)
    ensures '@' !in r
    ensures r == [] || (!IsSpace(r[0]) && !IsSpace(r[|r| - 1]))
  {
    var b := BeforeAt(model);
    var r := Strip(b);
    assert forall k :: 0 <= k < |r| ==> r[k] == b[StripFrom(b) + k];
    r
  }

  lemma BeforeAtNoAt(s: string)
    requires '@' !in s
    ensures BeforeAt(s) == s
  {
    assert AtIndex(s) == |s|;
  }

  lemma StripClean(s: string)
    requires s == [] || (!IsSpace(s[0]) && !IsSpace(s[|s| - 1]))
    ensures Strip(s) == s
  {
    assert StripFrom(s) == 0;
    if |s| > 0 {
      assert TrailingFrom(s) == |s|;
    }
  }

  /** Labelling an already clean label changes nothing. */
  lemma CpuModelLabelIdempotent(model: string)
    ensures CpuModelLabel(CpuModelLabel(model)) == CpuModelLabel(model)
  {
    var r := CpuModelLabel(model);
    BeforeAtNoAt(r);
    StripClean(r);
  }

  /** The label is the text before the first `'@'` with its surrounding
      white space, and only that, removed. */
  lemma CpuModelLabelLocated(model: string)
    ensures var b := BeforeAt(model);
      && StripFrom(b) <= StripTo(b) <= AtIndex(model)
      && CpuModelLabel(model) == model[StripFrom(b)..StripTo(b)]
      && (forall k :: 0 <= k < StripFrom(b) ==> IsSpace(model[k]))
      && (forall k :: StripTo(b) <= k < AtIndex(model) ==> IsSpace(model[k]))
  {
    var b := BeforeAt(model);
    assert b == model[..AtIndex(model)];
    assert b[StripFrom(b)..StripTo(b)] == model[StripFrom(b)..StripTo(b)];
  }
}

=== FILE: dashboard.dfy ===
/** The fixed dashboard of `create_system_info_image`: a 1200 by 1050
    canvas, a header, a top row of three 350 by 480 cards (CPU, memory,
    disk) and a bottom row of two 525 by 330 cards (system, bot), each row
    evenly spaced. Every coordinate in the source is a multiple of 0.5, so
    the reals used here are the exact values Python's floats hold. */
module Dashboard {
  import opened Geometry
  import opened Drawing
  import opened CpuLabel
  import BotInfo

  const CanvasWidth: real := 1200.0
  const CanvasHeight: real := 1050.0
  const TopCardWidth: real := 350.0
  const TopCardHeight: real := 480.0
  const TopRowY: real := 180.0
  const RowGap: real := 40.0
  const BottomCardWidth: real := 525.0
  const BottomCardHeight: real := 330.0

  function Canvas(): Box {
    Box(0.0, 0.0, CanvasWidth, CanvasHeight)
  }

  /** `(W - n * w) / (n + 1)`: the equal margin around and between `n`
      cards of width `w` in a row. */
  function Padding(n: nat, w: real): real {
    (CanvasWidth - n as real * w) / (n as real + 1.0)
  }

  /** Left edge of card `i` in a row of `n`: `padding * (i + 1) + w * i`. */
  function SlotX(n: nat, w: real, i: nat): real {
    Padding(n, w) * (i as real + 1.0) + w * i as real
  }

  /** The left margin, every gap and the right margin all equal the padding. */
  lemma EvenSpacing(n: nat, w: real, i: nat)
    requires 0 < n
    ensures SlotX(n, w, 0) == Padding(n, w)
    ensures i + 1 < n ==> SlotX(n, w, i + 1) - (SlotX(n, w, i) + w) == Padding(n, w)
    ensures CanvasWidth - (SlotX(n, w, n - 1) + w) == Padding(n, w)
  {
    var p := Padding(n, w);
    var m := n as real;
    assert p * (m + 1.0) == CanvasWidth - m * w;
    calc {
      SlotX(n, w, n - 1) + w;
      p * ((n - 1) as real + 1.0) + w * (n - 1) as real + w;
      p * m + w * m;
    }
  }

  function BottomRowY(): real {
    TopRowY + TopCardHeight + RowGap
  }

  /** The concrete rows: padding 37.5 on top, 50 below; cards at 37.5, 425
      and 812.5, then 50 and 625; the bottom row spans 700 to 1030. */
  lemma RowNumbers()
    ensures Padding(3, TopCardWidth) == 37.5
    ensures SlotX(3, TopCardWidth, 0) == 37.5 && SlotX(3, TopCardWidth, 1) == 425.0
    ensures SlotX(3, TopCardWidth, 2) == 812.5
    ensures Padding(2, BottomCardWidth) == 50.0
    ensures SlotX(2, BottomCardWidth, 0) == 50.0 && SlotX(2, BottomCardWidth, 1) == 625.0
    ensures BottomRowY() == 700.0 && BottomRowY() + BottomCardHeight == 1030.0
    ensures BottomRowY() + BottomCardHeight <= CanvasHeight
  {
  }

  function TopCardAt(i: nat): Point { Point(SlotX(3, TopCardWidth, i), TopRowY) }
  function BottomCardAt(i: nat): Point { Point(SlotX(2, BottomCardWidth, i), BottomRowY()) }

  /** The five card panels: CPU, memory, disk, system, bot. Each lies on
      the canvas and no two of them touch. */
  function CardBoxes(): (r: seq<Box>)
    ensures |r| == 5
    ensures forall k :: 0 <= k < 5 ==> Within(r[k], Canvas())
    ensures forall k, l :: 0 <= k < l < 5 ==> Apart(r[k], r[l])
  {
    RowNumbers();
    [ CardBox(TopCardAt(0), TopCardWidth, TopCardHeight),
      CardBox(TopCardAt(1), TopCardWidth, TopCardHeight),
      CardBox(TopCardAt(2), TopCardWidth, TopCardHeight),
      CardBox(BottomCardAt(0), BottomCardWidth, BottomCardHeight),
      CardBox(BottomCardAt(1), BottomCardWidth, BottomCardHeight)]
  }

  /** The header icon's box. */
  function HeaderBox(): Box {
    Box(60.0, 58.0, 60.0 + IconWidth, 58.0 + IconHeight)
  }

  /** The header icon lies on the canvas and touches none of the cards. */
  lemma HeaderApart()
    ensures forall k :: 0 <= k < 5 ==> Apart(HeaderBox(), CardBoxes()[k])
    ensures Within(HeaderBox(), Canvas())
  {
    RowNumbers();
  }

  // ---------------------------------------------------------------------
  // Cards and their contents
  // ---------------------------------------------------------------------

  /** Top cards: the donut centre sits at the middle of the content width,
      80 below the content origin. */
  function DonutCenter(origin: Point): Point {
    Point(origin.x + (TopCardWidth - 60.0) / 2.0, origin.y + 80.0)
  }

  /** The two legend dots and their words below a donut. */
  function Legend(origin: Point, c: Color, usedWord: string): seq<Shape> {
    var x, y := origin.x, origin.y;
    [ Ellipse(Box(x + 80.0, y + 195.0, x + 95.0, y + 210.0), c, true, 1.0),
      Text(Point(x + 105.0, y + 192.0), usedWord, 20, TextSub, false),
      Ellipse(Box(x + 190.0, y + 195.0, x + 205.0, y + 210.0), LegendFree, true, 1.0),
      Text(Point(x + 215.0, y + 192.0), "空闲", 20, TextSub, false)]
  }

  /** A top card at `at`: panel, donut, legend and two rows starting 250
      below the content origin, as wide as the card less 60. */
  function TopCard(at: Point, title: string, icon: IconName, c: Color, percent: real, usedWord: string,
                   first: (string, string), second: (string, string),
                   percentText: real -> string, measure: Measure): (r: seq<Shape>)
    ensures var n := |Card(at, TopCardWidth, TopCardHeight, title, icon, c).shapes|;
      && n + 1 < |r| && r[n + 1].Arc?
      && r[n + 1].box == Box(at.x + 30.0 + 65.0, at.y + 90.0, at.x + 30.0 + 225.0, at.y + 90.0 + 160.0)
      && r[n + 1].stop - r[n + 1].start == DegreesPerPercent * percent
      && r[n + 1].color == c
    ensures |r| > 0
    ensures r[|r| - 1] == Line(Point(at.x + 30.0, at.y + 428.0), Point(at.x + 320.0, at.y + 428.0), DividerColor, 1.0)
  {
    var card := Card(at, TopCardWidth, TopCardHeight, title, icon, c);
    var o := card.origin;
    var head := card.shapes
      + Donut(DonutCenter(o), percent, c, percentText(percent), measure)
      + Legend(o, c, usedWord);
    var tail := InfoRows(o.y + 250.0, o.x, TopCardWidth - 60.0, [first, second], measure);
    assert DividerAt(tail, 1, RowY(o.y + 250.0, 1), o.x, TopCardWidth - 60.0);
    assert (head + tail)[|head + tail| - 1] == tail[5];
    head + tail
  }

  /** A bottom card at `at`: panel and rows from the content origin, as
      wide as the card less 60. It holds up to five rows: the fifth divider
      is 328 below the card's top, inside its 330. */
  function BottomCard(at: Point, title: string, icon: IconName, rows: seq<(string, string)>, measure: Measure)
    : (r: seq<Shape>)
    ensures |rows| <= 5 ==> AllWithin(r, CardBox(at, BottomCardWidth, BottomCardHeight))
    ensures |rows| == 5 ==>
      (|r| > 0 && r[|r| - 1] == Line(Point(at.x + 30.0, at.y + 328.0), Point(at.x + 495.0, at.y + 328.0), DividerColor, 1.0))
  {
    var card := Card(at, BottomCardWidth, BottomCardHeight, title, icon, TextMain);
    var o := card.origin;
    var tail := InfoRows(o.y, o.x, BottomCardWidth - 60.0, rows, measure);
    assert |rows| <= 5 ==> AllWithin(card.shapes + tail, CardBox(at, BottomCardWidth, BottomCardHeight)) by {
      if |rows| <= 5 {
        var b := CardBox(at, BottomCardWidth, BottomCardHeight);
        InfoRowsWithin(o.y, o.x, BottomCardWidth - 60.0, rows, measure, b);
        AllWithinConcat(card.shapes, tail, b);
      }
    }
    var fifth := Line(Point(at.x + 30.0, at.y + 328.0), Point(at.x + 495.0, at.y + 328.0), DividerColor, 1.0);
    assert |rows| == 5 ==> (card.shapes + tail)[|card.shapes + tail| - 1] == fifth by {
      if |rows| == 5 {
        assert DividerAt(tail, 4, RowY(o.y, 4), o.x, BottomCardWidth - 60.0);
        assert RowY(o.y, 4) + DividerOffset == at.y + 328.0;
      }
    }
    card.shapes + tail
  }

  /** The donut rings of a card at `at` span 95..255 across and 90..250
      down, inside the 350×480 card. */
  lemma DonutWithinTopCard(at: Point, percent: real, c: Color, caption: string, measure: Measure)
    ensures AllWithin(Donut(DonutCenter(Point(at.x + ContentInsetX, at.y + ContentInsetY)), percent, c, caption, measure),
                      CardBox(at, TopCardWidth, TopCardHeight))
  {
    var b := CardBox(at, TopCardWidth, TopCardHeight);
    var donut := Donut(DonutCenter(Point(at.x + ContentInsetX, at.y + ContentInsetY)), percent, c, caption, measure);
    assert InkWithin(donut[0], b) && InkWithin(donut[1], b) && InkWithin(donut[2], b);
  }

  /** The legend dots of a card at `at` lie 285..300 down, inside the card. */
  lemma LegendWithinTopCard(at: Point, c: Color, usedWord: string)
    ensures AllWithin(Legend(Point(at.x + ContentInsetX, at.y + ContentInsetY), c, usedWord),
                      CardBox(at, TopCardWidth, TopCardHeight))
  {
    var b := CardBox(at, TopCardWidth, TopCardHeight);
    var legend := Legend(Point(at.x + ContentInsetX, at.y + ContentInsetY), c, usedWord);
    assert InkWithin(legend[0], b) && InkWithin(legend[1], b);
    assert InkWithin(legend[2], b) && InkWithin(legend[3], b);
  }

  /** Every shape with an ink box that a top card draws (panel, icon,
      rings, legend dots, dividers) stays on the card, wherever the card is
      put. Texts have no ink box: a value wider than its row starts left of
      the row. */
  lemma TopCardWithin(at: Point, title: string, icon: IconName, c: Color, percent: real, usedWord: string,
                      first: (string, string), second: (string, string),
                      percentText: real -> string, measure: Measure)
    ensures AllWithin(TopCard(at, title, icon, c, percent, usedWord, first, second, percentText, measure),
                      CardBox(at, TopCardWidth, TopCardHeight))
  {
    var b := CardBox(at, TopCardWidth, TopCardHeight);
    var card := Card(at, TopCardWidth, TopCardHeight, title, icon, c);
    var o := card.origin;
    assert AllWithin(card.shapes, b);
    var donut := Donut(DonutCenter(o), percent, c, percentText(percent), measure);
    DonutWithinTopCard(at, percent, c, percentText(percent), measure);
    var legend := Legend(o, c, usedWord);
    LegendWithinTopCard(at, c, usedWord);
    var tail := InfoRows(o.y + 250.0, o.x, TopCardWidth - 60.0, [first, second], measure);
    InfoRowsWithin(o.y + 250.0, o.x, TopCardWidth - 60.0, [first, second], measure, b);
    AllWithinConcat(card.shapes, donut, b);
    AllWithinConcat(card.shapes + donut, legend, b);
    AllWithinConcat(card.shapes + donut + legend, tail, b);
  }


  /** Row `j` of a bottom card ends its value exactly 30 inside the card's
      right edge, for any font. */
  lemma BottomCardRightAligned(at: Point, title: string, icon: IconName, rows: seq<(string, string)>,
                               measure: Measure, j: nat)
    requires j < |rows|
    ensures var n := |Card(at, BottomCardWidth, BottomCardHeight, title, icon, TextMain).shapes|;
      var r := BottomCard(at, title, icon, rows, measure);
      && r[n + 3 * j + 1].Text? && r[n + 3 * j + 1].text == rows[j].1
      && r[n + 3 * j + 1].at.y == at.y + ContentInsetY + RowPitch * j as real
      && r[n + 3 * j + 1].at.x + measure(rows[j].1, RowTextSize, false).right == at.x + BottomCardWidth - 30.0
  {
    var card := Card(at, BottomCardWidth, BottomCardHeight, title, icon, TextMain);
    var o := card.origin;
    var tail := InfoRows(o.y, o.x, BottomCardWidth - 60.0, rows, measure);
    InfoRowsRightAligned(o.y, o.x, BottomCardWidth - 60.0, rows, measure, j);
    assert (card.shapes + tail)[|card.shapes| + 3 * j + 1] == tail[3 * j + 1];
  }

  /** Both rows of a top card end their values 30 inside the card's right
      edge, for any font. */
  lemma TopCardRightAligned(at: Point, title: string, icon: IconName, c: Color, percent: real, usedWord: string,
                            first: (string, string), second: (string, string),
                            percentText: real -> string, measure: Measure, j: nat)
    requires j < 2
    ensures var n := |Card(at, TopCardWidth, TopCardHeight, title, icon, c).shapes| + 7;
      var r := TopCard(at, title, icon, c, percent, usedWord, first, second, percentText, measure);
      var v := [first, second][j].1;
      && r[n + 3 * j + 1].Text? && r[n + 3 * j + 1].text == v
      && r[n + 3 * j + 1].at.y == at.y + ContentInsetY + 250.0 + RowPitch * j as real
      && r[n + 3 * j + 1].at.x + measure(v, RowTextSize, false).right == at.x + TopCardWidth - 30.0
  {
    var card := Card(at, TopCardWidth, TopCardHeight, title, icon, c);
    var o := card.origin;
    var head := card.shapes
      + Donut(DonutCenter(o), percent, c, percentText(percent), measure)
      + Legend(o, c, usedWord);
    assert |head| == |card.shapes| + 7;
    var rows := [first, second];
    var tail := InfoRows(o.y + 250.0, o.x, TopCardWidth - 60.0, rows, measure);
    InfoRowsRightAligned(o.y + 250.0, o.x, TopCardWidth - 60.0, rows, measure, j);
    assert (head + tail)[|head| + 3 * j + 1] == tail[3 * j + 1];
  }

  // ---------------------------------------------------------------------
  // The whole image
  // ---------------------------------------------------------------------

  /** The machine dictionary as the renderer reads it. */
  datatype SystemInfo = SystemInfo(
    os: string, pythonVersion: string, uptime: string, netSent: string, netRecv: string,
    cpuUsage: real, cpuModel: string, cpuCores: string,
    memUsage: real, memUsed: string, memTotal: string,
    diskUsage: real, diskUsed: string, diskTotal: string)

  /** The title, the icon beside it and the generation time; only the
      icon leaves ink, and it stays in the header box. */
  function Header(timestamp: string): (r: seq<Shape>)
    ensures AllWithin(r, HeaderBox())
    ensures |r| == |Icon(SystemIcon, Point(60.0, 58.0), TextMain)| + 2
    ensures r[..|r| - 2] == Icon(SystemIcon, Point(60.0, 58.0), TextMain)
    ensures r[|r| - 2] == Text(Point(110.0, 60.0), "系统信息面板", 36, TextMain, true)
    ensures r[|r| - 1] == Text(Point(110.0, 110.0), "生成时间: " + timestamp, 22, TextSub, false)
  {
    Icon(SystemIcon, Point(60.0, 58.0), TextMain)
    + [ Text(Point(110.0, 60.0), "系统信息面板", 36, TextMain, true),
        Text(Point(110.0, 110.0), "生成时间: " + timestamp, 22, TextSub, false)]
  }

  function SystemRows(sys: SystemInfo): seq<(string, string)> {
    [ ("操作系统", sys.os),
      ("Python版本", sys.pythonVersion),
      ("系统运行时长", sys.uptime),
      ("网络 上传/下载", sys.netSent + " / " + sys.netRecv)]
  }

  function BotRows(bot: BotInfo.Info): seq<(string, string)> {
    [ ("Bot运行时长", bot.uptime),
      ("已加载插件数", bot.plugins),
      ("消息平台数", bot.platforms),
      ("消息总数", bot.messageCount),
      ("Bot内存占用", bot.memUsage)]
  }

  /** Card `k` of the dashboard, in drawing order. */
  function Panel(k: nat, sys: SystemInfo, bot: BotInfo.Info, percentText: real -> string, measure: Measure)
    : seq<Shape>
    requires k < 5
  {
    if k == 0 then
      TopCard(TopCardAt(0), "CPU 使用率", CpuIcon, CpuColor, sys.cpuUsage, "使用中",
              ("处理器型号", CpuModelLabel(sys.cpuModel)), ("核心数量", sys.cpuCores), percentText, measure)
    else if k == 1 then
      TopCard(TopCardAt(1), "内存使用率", MemoryIcon, MemColor, sys.memUsage, "已使用",
              ("已使用", sys.memUsed), ("总容量", sys.memTotal), percentText, measure)
    else if k == 2 then
      TopCard(TopCardAt(2), "磁盘使用率", DiskIcon, DiskColor, sys.diskUsage, "已使用",
              ("已使用", sys.diskUsed), ("总容量", sys.diskTotal), percentText, measure)
    else if k == 3 then
      BottomCard(BottomCardAt(0), "系统信息", SystemIcon, SystemRows(sys), measure)
    else
      BottomCard(BottomCardAt(1), "AstrBot 信息", BotIcon, BotRows(bot), measure)
  }

  /** The first `k` cards, in drawing order. */
  function Panels(k: nat, sys: SystemInfo, bot: BotInfo.Info, percentText: real -> string, measure: Measure)
    : seq<Shape>
    requires k <= 5
  {
    if k == 0 then [] else Panels(k - 1, sys, bot, percentText, measure) + Panel(k - 1, sys, bot, percentText, measure)
  }

  /** Every shape with an ink box that card `k` draws stays on its own
      panel. */
  lemma PanelWithin(k: nat, sys: SystemInfo, bot: BotInfo.Info, percentText: real -> string, measure: Measure)
    requires k < 5
    ensures AllWithin(Panel(k, sys, bot, percentText, measure), CardBoxes()[k])
  {
    if k == 0 {
      TopCardWithin(TopCardAt(0), "CPU 使用率", CpuIcon, CpuColor, sys.cpuUsage, "使用中",
                    ("处理器型号", CpuModelLabel(sys.cpuModel)), ("核心数量", sys.cpuCores), percentText, measure);
    } else if k == 1 {
      TopCardWithin(TopCardAt(1), "内存使用率", MemoryIcon, MemColor, sys.memUsage, "已使用",
                    ("已使用", sys.memUsed), ("总容量", sys.memTotal), percentText, measure);
    } else if k == 2 {
      TopCardWithin(TopCardAt(2), "磁盘使用率", DiskIcon, DiskColor, sys.diskUsage, "已使用",
                    ("已使用", sys.diskUsed), ("总容量", sys.diskTotal), percentText, measure);
    }
    // Cards 3 and 4 follow from `BottomCard`'s contract: the system card
    // has four rows and the bot card five.
  }

  lemma {:induction false} PanelsWithinCanvas(k: nat, sys: SystemInfo, bot: BotInfo.Info,
                                              percentText: real -> string, measure: Measure)
    requires k <= 5
    ensures AllWithin(Panels(k, sys, bot, percentText, measure), Canvas())
  {
    if k > 0 {
      PanelsWithinCanvas(k - 1, sys, bot, percentText, measure);
      PanelWithin(k - 1, sys, bot, percentText, measure);
      AllWithinWiden(Panel(k - 1, sys, bot, percentText, measure), CardBoxes()[k - 1], Canvas());
      AllWithinConcat(Panels(k - 1, sys, bot, percentText, measure), Panel(k - 1, sys, bot, percentText, measure), Canvas());
    }
  }

  /** The overlay: header, then the five cards. `percentText` is the
      `f"{p:.1f}%"` formatting, `measure` the font's text extents. Every
      shape with an ink box (panels, icons, arcs, dots, dividers) lies on
      the canvas, whatever the texts are. */
  function Render(sys: SystemInfo, bot: BotInfo.Info, timestamp: string,
                  percentText: real -> string, measure: Measure): (r: seq<Shape>)
    ensures AllWithin(r, Canvas())
  {
    var cv := Canvas();
    var head := Header(timestamp);
    var cards := Panels(5, sys, bot, percentText, measure);
    assert AllWithin(head + cards, cv) by {
      HeaderApart();
      AllWithinWiden(head, HeaderBox(), cv);
      PanelsWithinCanvas(5, sys, bot, percentText, measure);
      AllWithinConcat(head, cards, cv);
    }
    head + cards
  }

  /** Two different cards never share ink: any inked shape of card `k` and
      any inked shape of card `l` are apart. */
  lemma CardsInkApart(k: nat, l: nat, i: nat, j: nat, sys: SystemInfo, bot: BotInfo.Info,
                      percentText: real -> string, measure: Measure)
    requires k < 5 && l < 5 && k != l
    requires i < |Panel(k, sys, bot, percentText, measure)| && j < |Panel(l, sys, bot, percentText, measure)|
    requires Ink(Panel(k, sys, bot, percentText, measure)[i]).Some?
    requires Ink(Panel(l, sys, bot, percentText, measure)[j]).Some?
    ensures Apart(Ink(Panel(k, sys, bot, percentText, measure)[i]).value,
                  Ink(Panel(l, sys, bot, percentText, measure)[j]).value)
  {
    var a := Panel(k, sys, bot, percentText, measure);
    var b := Panel(l, sys, bot, percentText, measure);
    PanelWithin(k, sys, bot, percentText, measure);
    PanelWithin(l, sys, bot, percentText, measure);
    assert InkWithin(a[i], CardBoxes()[k]) && InkWithin(b[j], CardBoxes()[l]);
    assert Apart(CardBoxes()[k], CardBoxes()[l]) by {
      if l < k {
        assert Apart(CardBoxes()[l], CardBoxes()[k]);
      }
    }
    ApartOfWithin(Ink(a[i]).value, CardBoxes()[k], Ink(b[j]).value, CardBoxes()[l]);
  }
}

=== FILE: decimal.dfy ===
/** Decimal rendering of integers as Python's `str(int)` (and the `{n}`
    field of an f-string) produces it, together with a reader that recovers
    the number from the front of a string. The reader is the inverse used to
    show that the plugin's labels lose no information. */
module Decimal {
  import opened Wrappers

  predicate IsDigit(c: char) {
    '0' <= c <= '9'
  }

  predicate AllDigits(s: string) {
    forall i :: 0 <= i < |s| ==> IsDigit(s[i])
  }

  function DigitValue(c: char): (d: nat)
    requires IsDigit(c)
    ensures d < 10
  {
    (c as int) - ('0' as int)
  }

  function DigitChar(d: nat): (c: char)
    requires d < 10
    ensures IsDigit(c) && DigitValue(c) == d
  {
    (('0' as int) + d) as char
  }

  /** `str(n)` for a non-negative `n`: at least one digit, no leading zero. */
  function ShowNat(n: nat): (s: string)
    ensures |s| > 0 && AllDigits(s)
    ensures |s| > 1 ==> s[0] != '0'
    ensures n < 10 <==> |s| == 1
    decreases n
  {
    if n < 10 then [DigitChar(n)] else ShowNat(n / 10) + [DigitChar(n % 10)]
  }

  /** `str(n)` for any integer: a minus sign in front of a negative number. */
  function Show(n: int): (s: string)
    ensures |s| > 0
    ensures n < 0 <==> s[0] == '-'
    ensures n >= 0 ==> AllDigits(s)
  {
    if n < 0 then "-" + ShowNat(-n) else ShowNat(n)
  }

  /** The number a string of decimal digits denotes. */
  function ValueOf(s: string): nat
    requires AllDigits(s)
  {
    if |s| == 0 then 0 else ValueOf(s[..|s| - 1]) * 10 + DigitValue(s[|s| - 1])
  }

  lemma {:induction false} ValueOfShowNat(n: nat)
    ensures ValueOf(ShowNat(n)) == n
    decreases n
  {
    if n >= 10 {
      var s := ShowNat(n);
      assert s == ShowNat(n / 10) + [DigitChar(n % 10)];
      assert s[..|s| - 1] == ShowNat(n / 10);
      ValueOfShowNat(n / 10);
    }
  }

  /** Length of the run of digits at the front of `s`. */
  function DigitRun(s: string): (k: nat)
    ensures k <= |s|
    ensures AllDigits(s[..k])
    ensures k < |s| ==> !IsDigit(s[k])
  {
    if |s| == 0 || !IsDigit(s[0]) then 0
    else
      var k := 1 + DigitRun(s[1..]);
      assert s[..k] == [s[0]] + s[1..][..k - 1];
      k
  }

  lemma {:induction false} DigitRunOfDigitsThen(d: string, rest: string)
    requires AllDigits(d)
    requires rest == [] || !IsDigit(rest[0])
    ensures DigitRun(d + rest) == |d|
    decreases |d|
  {
    if |d| > 0 {
      assert (d + rest)[1..] == d[1..] + rest;
      DigitRunOfDigitsThen(d[1..], rest);
    }
  }

  /** Reads the longest run of digits at the front of `s` (at least one)
      and returns its value and what follows it. */
  function ReadNat(s: string): (r: Option<(nat, string)>)
    ensures r.Some? ==> |r.value.1| < |s| && r.value.1 == s[|s| - |r.value.1|..]
  {
    var k := DigitRun(s);
    if k == 0 then None else Some((ValueOf(s[..k]), s[k..]))
  }

  lemma ReadNatShowNat(n: nat, rest: string)
    requires rest == [] || !IsDigit(rest[0])
    ensures ReadNat(ShowNat(n) + rest) == Some((n, rest))
  {
    var s := ShowNat(n) + rest;
    DigitRunOfDigitsThen(ShowNat(n), rest);
    assert s[..|ShowNat(n)|] == ShowNat(n);
    assert s[|ShowNat(n)|..] == rest;
    ValueOfShowNat(n);
  }

  /** Reads an optionally negative integer from the front of `s`. */
  function ReadInt(s: string): (r: Option<(int, string)>)
    ensures r.Some? ==> |r.value.1| < |s|
  {
    if |s| > 0 && s[0] == '-' then
      var r := ReadNat(s[1..]);
      if r.None? then None
      else
        var v: int := -(r.value.0 as int);
        Some((v, r.value.1))
    else ReadNat(s)
  }

  lemma ReadIntShow(n: int, rest: string)
    requires rest == [] || !IsDigit(rest[0])
    ensures ReadInt(Show(n) + rest) == Some((n, rest))
  {
    if n < 0 {
      ReadIntMinus(-n, rest);
      assert Show(n) == "-" + ShowNat(-n);
      assert Show(n) + rest == "-" + (ShowNat(-n) + rest);
    } else {
      ReadIntPlain(n, rest);
      assert Show(n) == ShowNat(n);
    }
  }

  lemma ReadIntMinus(m: nat, rest: string)
    requires rest == [] || !IsDigit(rest[0])
    ensures ReadInt("-" + (ShowNat(m) + rest)) == Some((-(m as int), rest))
  {
    var s := "-" + (ShowNat(m) + rest);
    assert s[0] == '-';
    assert s[1..] == ShowNat(m) + rest;
    ReadNatShowNat(m, rest);
  }

  lemma ReadIntPlain(m: nat, rest: string)
    requires rest == [] || !IsDigit(rest[0])
    ensures ReadInt(ShowNat(m) + rest) == Some((m, rest))
  {
    var s := ShowNat(m) + rest;
    assert s[0] == ShowNat(m)[0];
    assert IsDigit(s[0]);
    ReadNatShowNat(m, rest);
  }

  /** Consumes the literal `lit` from the front of `s`. */
  function Expect(lit: string, s: string): (r: Option<string>)
    ensures r.Some? <==> lit <= s
    ensures r.Some? ==> s == lit + r.value
  {
    if |lit| <= |s| && s[..|lit|] == lit then Some(s[|lit|..]) else None
  }
}

=== FILE: drawing.dfy ===
/** The drawing primitives of the dashboard and the nested helpers that
    emit them: icons, donut charts, label/value rows and cards. A drawing is
    the sequence of Pillow calls it makes; a call's ink is the box its
    pixels stay in. Pillow draws rectangle, ellipse and arc outlines inward
    from their box, and a wide axis-aligned line spreads half its width to
    each side across its direction. Text has no ink box here: glyph extents
    come from the font, which the model only queries through `Measure`. */
module Drawing {
  import opened Wrappers
  import opened Geometry

  datatype Color = Hex(code: string) | Rgba(r: nat, g: nat, b: nat, a: nat) | Named(name: string)

  const CardFill: Color := Rgba(255, 255, 255, 200)
  const TextMain: Color := Hex("#2c3e50")
  const TextSub: Color := Hex("#7f8c8d")
  const TextValue: Color := Hex("#34495e")
  const DividerColor: Color := Hex("#ecf0f1")
  const CpuColor: Color := Hex("#e74c3c")
  const MemColor: Color := Hex("#3498db")
  const DiskColor: Color := Hex("#f1c40f")
  const LegendFree: Color := Hex("#bdc3c7")
  const White: Color := Named("white")

  datatype Shape =
    | RoundedRect(box: Box, radius: real, fill: Color)
    | Rect(box: Box, color: Color, filled: bool, width: real)
    | Ellipse(box: Box, color: Color, filled: bool, width: real)
    | Line(from: Point, to: Point, color: Color, width: real)
    | Arc(box: Box, start: real, stop: real, color: Color, width: real)
    | Text(at: Point, text: string, size: nat, color: Color, bold: bool)

  /** `textbbox((0, 0), text, font)[2]` and `[3]`: how far right and down
      the text reaches from its origin. */
  datatype Extent = Extent(right: real, bottom: real)

  /** The font's answer for a text at a size, regular or bold. */
  type Measure = (string, nat, bool) -> Extent

  /** Box covered by a line of the given width. */
  function LineInk(from: Point, to: Point, width: real): Box {
    var s := Span(from, to);
    var h := width / 2.0;
    if from.y == to.y then Box(s.left, s.top - h, s.right, s.bottom + h)
    else if from.x == to.x then Box(s.left - h, s.top, s.right + h, s.bottom)
    else Box(s.left - h, s.top - h, s.right + h, s.bottom + h)
  }

  /** The ink box of a primitive; text has none. */
  function Ink(s: Shape): Option<Box> {
    match s
    case RoundedRect(b, _, _) => Some(b)
    case Rect(b, _, _, _) => Some(b)
    case Ellipse(b, _, _, _) => Some(b)
    case Arc(b, _, _, _, _) => Some(b)
    case Line(p, q, _, w) => Some(LineInk(p, q, w))
    case Text(_, _, _, _, _) => None
  }

  predicate InkWithin(s: Shape, b: Box) {
    Ink(s).Some? ==> Within(Ink(s).value, b)
  }

  predicate AllWithin(ss: seq<Shape>, b: Box) {
    forall i :: 0 <= i < |ss| ==> InkWithin(ss[i], b)
  }

  lemma AllWithinConcat(a: seq<Shape>, c: seq<Shape>, b: Box)
    requires AllWithin(a, b) && AllWithin(c, b)
    ensures AllWithin(a + c, b)
  {
    forall i | 0 <= i < |a + c|
      ensures InkWithin((a + c)[i], b)
    {
      if i < |a| {
        assert (a + c)[i] == a[i];
      } else {
        assert (a + c)[i] == c[i - |a|];
      }
    }
  }

  lemma AllWithinWiden(ss: seq<Shape>, b: Box, b': Box)
    requires AllWithin(ss, b) && Within(b, b')
    ensures AllWithin(ss, b')
  {
    forall i | 0 <= i < |ss|
      ensures InkWithin(ss[i], b')
    {
      if Ink(ss[i]).Some? {
        WithinTransitive(Ink(ss[i]).value, b, b');
      }
    }
  }

  // ---------------------------------------------------------------------
  // Icons
  // ---------------------------------------------------------------------

  datatype IconName = CpuIcon | MemoryIcon | DiskIcon | SystemIcon | BotIcon

  const IconWidth: real := 30.0
  const IconHeight: real := 40.0

  /** `draw_icon`: a few outlines and fills at fixed offsets from `p`; every
      glyph, stroke widths included, stays in the 30 by 40 box at `p`. */
  function Icon(name: IconName, p: Point, c: Color): (r: seq<Shape>)
    ensures |r| > 0
    ensures AllWithin(r, Box(p.x, p.y, p.x + IconWidth, p.y + IconHeight))
  {
    var x, y := p.x, p.y;
    match name
    case CpuIcon => [
      Rect(Box(x, y + 5.0, x + 30.0, y + 35.0), c, false, 3.0),
      Line(Point(x + 7.0, y + 12.0), Point(x + 7.0, y + 28.0), c, 3.0),
      Line(Point(x + 15.0, y + 12.0), Point(x + 15.0, y + 28.0), c, 3.0),
      Line(Point(x + 23.0, y + 12.0), Point(x + 23.0, y + 28.0), c, 3.0)]
    case MemoryIcon => [
      Rect(Box(x, y + 10.0, x + 30.0, y + 30.0), c, false, 3.0),
      Rect(Box(x + 5.0, y + 15.0, x + 25.0, y + 25.0), c, true, 1.0)]
    case DiskIcon => [
      Ellipse(Box(x, y + 5.0, x + 30.0, y + 35.0), c, false, 3.0),
      Ellipse(Box(x + 8.0, y + 13.0, x + 22.0, y + 27.0), c, false, 3.0)]
    case SystemIcon => [
      Rect(Box(x, y + 5.0, x + 30.0, y + 35.0), c, false, 3.0),
      Line(Point(x, y + 15.0), Point(x + 30.0, y + 15.0), c, 3.0),
      Line(Point(x + 5.0, y + 22.0), Point(x + 15.0, y + 22.0), c, 2.0)]
    case BotIcon => [
      Ellipse(Box(x + 5.0, y, x + 25.0, y + 20.0), c, true, 1.0),
      Rect(Box(x, y + 15.0, x + 30.0, y + 40.0), c, true, 1.0),
      Ellipse(Box(x + 8.0, y + 5.0, x + 12.0, y + 9.0), White, true, 1.0)]
  }

  // ---------------------------------------------------------------------
  // Donut chart
  // ---------------------------------------------------------------------

  const DonutRadius: real := 80.0
  const RingWidth: real := 20.0
  const StartAngle: real := -90.0
  const DegreesPerPercent: real := 3.6

  /** `draw_donut_chart`: the full track ring, the active arc from the top
      sweeping `3.6` degrees per percent (not clamped), and the percent
      caption centred on the ring's centre. */
  function Donut(center: Point, percent: real, c: Color, caption: string, measure: Measure): (r: seq<Shape>)
    ensures |r| == 3 && r[0].Arc? && r[1].Arc? && r[2].Text?
    ensures r[0].box == r[1].box == Box(center.x - DonutRadius, center.y - DonutRadius,
                                        center.x + DonutRadius, center.y + DonutRadius)
    ensures r[0].start == 0.0 && r[0].stop == 360.0 && r[0].color == LegendFree
    ensures r[1].start == StartAngle && r[1].stop - r[1].start == DegreesPerPercent * percent
    ensures r[1].color == c
    ensures r[2].text == caption && r[2].size == 32 && r[2].bold
    ensures r[2].at.x + measure(caption, 32, true).right / 2.0 == center.x
    ensures r[2].at.y + measure(caption, 32, true).bottom / 2.0 == center.y
  {
    var box := Box(center.x - DonutRadius, center.y - DonutRadius, center.x + DonutRadius, center.y + DonutRadius);
    var e := measure(caption, 32, true);
    [ Arc(box, 0.0, 360.0, LegendFree, RingWidth),
      Arc(box, StartAngle, StartAngle + percent * DegreesPerPercent, c, RingWidth),
      Text(Point(center.x - e.right / 2.0, center.y - e.bottom / 2.0), caption, 32, TextMain, true)]
  }

  /** Zero percent draws an empty active arc; a hundred ends where it began,
      at 270 degrees; past a hundred the arc keeps going. */
  lemma DonutBoundaries(center: Point, c: Color, caption: string, measure: Measure)
    ensures Donut(center, 0.0, c, caption, measure)[1].stop == StartAngle
    ensures Donut(center, 100.0, c, caption, measure)[1].stop == 270.0
    ensures Donut(center, 150.0, c, caption, measure)[1].stop == 450.0
  {
  }

  // ---------------------------------------------------------------------
  // Label/value row
  // ---------------------------------------------------------------------

  const RowTextSize: nat := 24
  const DividerOffset: real := 38.0

  /** `draw_info_line`: label at the left, value ending at the right edge
      of the row, divider across the row 38 below. */
  function InfoLine(y: real, left: real, width: real, caption: string, value: string, measure: Measure)
    : (r: seq<Shape>)
    ensures |r| == 3 && r[0].Text? && r[1].Text? && r[2].Line?
    ensures r[0].at == Point(left, y) && r[0].text == caption
    ensures r[1].text == value && r[1].at.y == y
    ensures r[1].at.x + measure(value, RowTextSize, false).right == left + width
    ensures r[2].from == Point(left, y + DividerOffset) && r[2].to == Point(left + width, y + DividerOffset)
  {
    var e := measure(value, RowTextSize, false);
    [ Text(Point(left, y), caption, RowTextSize, TextSub, false),
      Text(Point(left + width - e.right, y), value, RowTextSize, TextValue, false),
      Line(Point(left, y + DividerOffset), Point(left + width, y + DividerOffset), DividerColor, 1.0)]
  }

  /** The value's right edge is the row's right edge whatever the font
      measures, and the value starts inside the row exactly when it fits. */
  lemma InfoLineRightAligned(y: real, left: real, width: real, caption: string, value: string, measure: Measure)
    ensures var r := InfoLine(y, left, width, caption, value, measure);
      && r[1].at.x + measure(value, RowTextSize, false).right == left + width
      && (left <= r[1].at.x <==> measure(value, RowTextSize, false).right <= width)
  {
  }

  /** One row per (label, value) pair, 50 apart, the first at `y`. */
  const RowPitch: real := 50.0

  function RowY(y: real, k: nat): real {
    y + RowPitch * k as real
  }

  /** Shape `3k` of a run of rows is row `k`'s label at its left edge. */
  predicate LabelAt(r: seq<Shape>, k: nat, rowY: real, left: real, key: string) {
    3 * k < |r| && r[3 * k] == Text(Point(left, rowY), key, RowTextSize, TextSub, false)
  }

  /** Shape `3k + 2` of a run of rows is row `k`'s divider, 38 below it,
      across the whole row. */
  predicate DividerAt(r: seq<Shape>, k: nat, rowY: real, left: real, width: real) {
    3 * k + 2 < |r|
    && r[3 * k + 2] == Line(Point(left, rowY + DividerOffset), Point(left + width, rowY + DividerOffset), DividerColor, 1.0)
  }

  function InfoRows(y: real, left: real, width: real, rows: seq<(string, string)>, measure: Measure)
    : (r: seq<Shape>)
    ensures |r| == 3 * |rows|
    ensures forall k :: 0 <= k < |rows| ==> LabelAt(r, k, RowY(y, k), left, rows[k].0)
    ensures forall k :: 0 <= k < |rows| ==> DividerAt(r, k, RowY(y, k), left, width)
    decreases |rows|
  {
    if |rows| == 0 then []
    else
      var head := InfoLine(y, left, width, rows[0].0, rows[0].1, measure);
      var tail := InfoRows(y + RowPitch, left, width, rows[1..], measure);
      var r := head + tail;
      assert forall k :: 0 <= k < |rows| ==> LabelAt(r, k, RowY(y, k), left, rows[k].0) && DividerAt(r, k, RowY(y, k), left, width) by {
        forall k | 0 <= k < |rows|
          ensures LabelAt(r, k, RowY(y, k), left, rows[k].0) && DividerAt(r, k, RowY(y, k), left, width)
        {
          if k > 0 {
            assert LabelAt(tail, k - 1, RowY(y + RowPitch, k - 1), left, rows[1..][k - 1].0);
            assert DividerAt(tail, k - 1, RowY(y + RowPitch, k - 1), left, width);
            assert RowY(y + RowPitch, k - 1) == RowY(y, k);
            assert r[3 * k] == tail[3 * (k - 1)];
            assert r[3 * k + 2] == tail[3 * (k - 1) + 2];
          }
        }
      }
      r
  }

  /** All dividers of the rows lie across the row span, the last one 38
      below the last row. */
  lemma {:induction false} InfoRowsWithin(y: real, left: real, width: real, rows: seq<(string, string)>,
                                          measure: Measure, b: Box)
    requires width >= 0.0
    requires b.left <= left && left + width <= b.right
    requires b.top <= y + DividerOffset - 0.5
    requires y + RowPitch * (|rows| as real - 1.0) + DividerOffset + 0.5 <= b.bottom
    ensures AllWithin(InfoRows(y, left, width, rows, measure), b)
    decreases |rows|
  {
    if |rows| > 0 {
      var head := InfoLine(y, left, width, rows[0].0, rows[0].1, measure);
      assert AllWithin(head, b) by {
        forall i | 0 <= i < 3 ensures InkWithin(head[i], b) {}
      }
      if |rows| > 1 {
        InfoRowsWithin(y + RowPitch, left, width, rows[1..], measure, b);
      }
      AllWithinConcat(head, InfoRows(y + RowPitch, left, width, rows[1..], measure), b);
    }
  }

  /** Row `k` of the rows is right-aligned on the common edge `left + width`. */
  lemma {:induction false} InfoRowsRightAligned(y: real, left: real, width: real, rows: seq<(string, string)>,
                                                measure: Measure, k: nat)
    requires k < |rows|
    ensures var r := InfoRows(y, left, width, rows, measure);
      && r[3 * k + 1] == Text(Point(left + width - measure(rows[k].1, RowTextSize, false).right,
                                    y + RowPitch * k as real),
                              rows[k].1, RowTextSize, TextValue, false)
      && r[3 * k + 1].at.x + measure(rows[k].1, RowTextSize, false).right == left + width
    decreases k
  {
    var tail := InfoRows(y + RowPitch, left, width, rows[1..], measure);
    var head := InfoLine(y, left, width, rows[0].0, rows[0].1, measure);
    assert InfoRows(y, left, width, rows, measure) == head + tail;
    if k > 0 {
      InfoRowsRightAligned(y + RowPitch, left, width, rows[1..], measure, k - 1);
      assert (head + tail)[3 * k + 1] == tail[3 * (k - 1) + 1];
      assert rows[1..][k - 1] == rows[k];
    }
  }

  // ---------------------------------------------------------------------
  // Card
  // ---------------------------------------------------------------------

  datatype CardDrawing = CardDrawing(shapes: seq<Shape>, origin: Point)

  const ContentInsetX: real := 30.0
  const ContentInsetY: real := 90.0
  const CardRadius: real := 20.0

  function CardBox(at: Point, w: real, h: real): Box {
    Box(at.x, at.y, at.x + w, at.y + h)
  }

  /** `draw_card`: the panel, the icon at (30, 28), the bold title at
      (75, 30), and the content origin (30, 90) handed back for the card's
      contents. The panel and icon stay on the card when it has room for
      the icon. */
  function Card(at: Point, w: real, h: real, title: string, icon: IconName, c: Color): (r: CardDrawing)
    ensures r.origin == Point(at.x + ContentInsetX, at.y + ContentInsetY)
    ensures |r.shapes| > 0 && r.shapes[0] == RoundedRect(CardBox(at, w, h), CardRadius, CardFill)
    ensures w >= 60.0 && h >= 68.0 ==> AllWithin(r.shapes, CardBox(at, w, h))
  {
    var b := CardBox(at, w, h);
    var ip := Point(at.x + 30.0, at.y + 28.0);
    var panel := [RoundedRect(b, CardRadius, CardFill)];
    var glyph := Icon(icon, ip, c);
    var caption := [Text(Point(at.x + 75.0, at.y + 30.0), title, 30, TextMain, true)];
    assert w >= 60.0 && h >= 68.0 ==> AllWithin(panel + glyph + caption, b) by {
      if w >= 60.0 && h >= 68.0 {
        AllWithinWiden(glyph, Box(ip.x, ip.y, ip.x + IconWidth, ip.y + IconHeight), b);
        assert AllWithin(panel, b);
        assert AllWithin(caption, b);
        AllWithinConcat(panel, glyph, b);
        AllWithinConcat(panel + glyph, caption, b);
      }
    }
    CardDrawing(panel + glyph + caption, Point(at.x + ContentInsetX, at.y + ContentInsetY))
  }
}

=== FILE: duration.dfy ===
/** The two uptime labels of the dashboard.

    Python's `timedelta` normalises a duration of `t` whole seconds to
    `days = floor(t / 86400)` and `seconds = t mod 86400` with
    `0 <= seconds < 86400`, which is exactly Dafny's Euclidean `/` and `%`
    by a positive divisor, so elapsed times are plain `int`s here (a negative
    one arises when the boot time lies in the future of the clock). */
module Duration {
  import opened Wrappers
  import opened Decimal

  const SecondsPerMinute: int := 60
  const SecondsPerHour: int := 3600
  const SecondsPerDay: int := 86400

  /** The `seconds` attribute of a `timedelta` of `elapsed` seconds. */
  function DeltaSeconds(elapsed: int): (s: nat)
    ensures s < SecondsPerDay
    ensures (elapsed - s) % SecondsPerDay == 0
  {
    elapsed % SecondsPerDay
  }

  // ---------------------------------------------------------------------
  // System uptime: days, hours and minutes of the time since boot.
  // ---------------------------------------------------------------------

  datatype DayClock = DayClock(days: int, hours: nat, minutes: nat)

  /** Seconds from zero up to the start of the minute a `DayClock` names. */
  function StartSecond(c: DayClock): int {
    SecondsPerDay * c.days + SecondsPerHour * c.hours + SecondsPerMinute * c.minutes
  }

  /** The fields of the system uptime label: `uptime.days`,
      `uptime.seconds // 3600` and `uptime.seconds % 3600 // 60`. */
  function SystemUptime(elapsed: int): (c: DayClock)
    ensures c.hours < 24 && c.minutes < 60
    ensures StartSecond(c) <= elapsed < StartSecond(c) + SecondsPerMinute
  {
    var secs := DeltaSeconds(elapsed);
    DayClock(elapsed / SecondsPerDay, secs / SecondsPerHour, secs % SecondsPerHour / SecondsPerMinute)
  }

  /** The decomposition is the only one with in-range hours and minutes
      whose minute contains `elapsed`. */
  lemma SystemUptimeUnique(elapsed: int, c: DayClock)
    requires c.hours < 24 && c.minutes < 60
    requires StartSecond(c) <= elapsed < StartSecond(c) + SecondsPerMinute
    ensures c == SystemUptime(elapsed)
  {
    var inDay := SecondsPerHour * c.hours + SecondsPerMinute * c.minutes + (elapsed - StartSecond(c));
    assert 0 <= inDay < SecondsPerDay;
    assert elapsed == SecondsPerDay * c.days + inDay;
    DivModUnique(elapsed, SecondsPerDay, c.days, inDay);
    var inHour := SecondsPerMinute * c.minutes + (elapsed - StartSecond(c));
    assert inDay == SecondsPerHour * c.hours + inHour;
    DivModUnique(inDay, SecondsPerHour, c.hours, inHour);
    DivModUnique(inHour, SecondsPerMinute, c.minutes, elapsed - StartSecond(c));
  }

  lemma DivModUnique(a: int, b: int, q: int, r: int)
    requires b > 0 && 0 <= r < b && a == b * q + r
    ensures a / b == q && a % b == r
  {
    var k := a / b - q;
    assert b * k == r - a % b;
    if k > 0 {
      MultipleAtLeast(b, k);
      assert false;
    } else if k < 0 {
      MultipleAtLeast(b, -k);
      assert false;
    }
  }

  lemma MultipleAtLeast(b: int, k: int)
    requires b > 0 && k >= 1
    ensures b * k >= b
  {
  }

  /** The number of whole minutes from zero to the start of `c`. */
  function MinuteIndex(c: DayClock): int {
    1440 * c.days + 60 * c.hours + c.minutes
  }

  /** `elapsed` lies in minute number `MinuteIndex(SystemUptime(elapsed))`. */
  lemma MinuteOfUptime(elapsed: int)
    ensures elapsed / 60 == MinuteIndex(SystemUptime(elapsed))
  {
    var c := SystemUptime(elapsed);
    assert StartSecond(c) == 60 * MinuteIndex(c);
    DivModUnique(elapsed, 60, MinuteIndex(c), elapsed - StartSecond(c));
  }

  /** Two elapsed times give the same days/hours/minutes exactly when they
      fall in the same minute. */
  lemma SystemUptimeSameMinute(a: int, b: int)
    ensures SystemUptime(a) == SystemUptime(b) <==> a / 60 == b / 60
  {
    MinuteOfUptime(a);
    MinuteOfUptime(b);
    if a / 60 == b / 60 {
      var ca := SystemUptime(a);
      assert StartSecond(ca) == 60 * (a / 60);
      SystemUptimeUnique(b, ca);
    }
  }


  /** `f"{days}天 {hours}小时 {minutes}分钟"`. */
  function DayClockText(c: DayClock): string {
    Show(c.days) + ("天 " + (ShowNat(c.hours) + ("小时 " + (ShowNat(c.minutes) + "分钟"))))
  }

  /** Reads a system uptime label back into its fields. */
  function ReadSystemUptimeLabel(s: string): Option<DayClock> {
    match ReadInt(s)
    case None => None
    case Some((d, s1)) =>
      match Expect("天 ", s1)
      case None => None
      case Some(s2) =>
        match ReadNat(s2)
        case None => None
        case Some((h, s3)) =>
          match Expect("小时 ", s3)
          case None => None
          case Some(s4) =>
            match ReadNat(s4)
            case None => None
            case Some((m, s5)) =>
              if s5 == "分钟" then Some(DayClock(d, h, m)) else None
  }

  /** Every day clock, whatever its fields, reads back from its text. */
  lemma DayClockTextRoundTrip(c: DayClock)
    ensures ReadSystemUptimeLabel(DayClockText(c)) == Some(c)
  {
    var s5 := "分钟";
    var s4 := ShowNat(c.minutes) + s5;
    var s3 := "小时 " + s4;
    var s2 := ShowNat(c.hours) + s3;
    var s1 := "天 " + s2;
    assert DayClockText(c) == Show(c.days) + s1;
    ReadIntShow(c.days, s1);
    assert Expect("天 ", s1) == Some(s2);
    ReadNatShowNat(c.hours, s3);
    assert Expect("小时 ", s3) == Some(s4);
    ReadNatShowNat(c.minutes, s5);
  }

  /** The system uptime label, which reads back to the decomposition. */
  function SystemUptimeLabel(elapsed: int): (r: string)
    ensures ReadSystemUptimeLabel(r) == Some(SystemUptime(elapsed))
  {
    DayClockTextRoundTrip(SystemUptime(elapsed));
    DayClockText(SystemUptime(elapsed))
  }

  /** The label pins the elapsed time down to the minute and no further. */
  lemma SystemUptimeLabelSameMinute(a: int, b: int)
    ensures SystemUptimeLabel(a) == SystemUptimeLabel(b) <==> a / 60 == b / 60
  {
    SystemUptimeSameMinute(a, b);
  }

  // ---------------------------------------------------------------------
  // Bot uptime: `divmod` twice on `delta.seconds`; whole days are dropped.
  // ---------------------------------------------------------------------

  datatype Clock = Clock(hours: nat, minutes: nat, seconds: nat)

  function ClockSeconds(c: Clock): int {
    SecondsPerHour * c.hours + SecondsPerMinute * c.minutes + c.seconds
  }

  /** `m, s = divmod(delta.seconds, 60); h, m = divmod(m, 60)`. */
  function BotUptime(elapsed: int): (c: Clock)
    ensures c.hours < 24 && c.minutes < 60 && c.seconds < 60
    ensures ClockSeconds(c) == elapsed % SecondsPerDay
  {
    var m := DeltaSeconds(elapsed) / SecondsPerMinute;
    var s := DeltaSeconds(elapsed) % SecondsPerMinute;
    Clock(m / 60, m % 60, s)
  }

  /** Whole days of running time leave no trace on the bot clock. */
  lemma BotUptimeDropsDays(elapsed: int, k: int)
    ensures BotUptime(elapsed + SecondsPerDay * k) == BotUptime(elapsed)
  {
    DivModUnique(elapsed + SecondsPerDay * k, SecondsPerDay, elapsed / SecondsPerDay + k, elapsed % SecondsPerDay);
  }

  /** The bot clock shows the same hours and minutes as the system
      decomposition of the same elapsed time, plus the leftover seconds. */
  lemma BotUptimeMatchesSystemUptime(elapsed: int)
    ensures BotUptime(elapsed).hours == SystemUptime(elapsed).hours
    ensures BotUptime(elapsed).minutes == SystemUptime(elapsed).minutes
    ensures elapsed == SecondsPerDay * SystemUptime(elapsed).days + ClockSeconds(BotUptime(elapsed))
  {
    var secs := DeltaSeconds(elapsed);
    DivModUnique(secs / 60, 60, secs / 3600, secs % 3600 / 60);
  }

  /** `f"{h}小时{m}分{s}秒"`. */
  function ClockText(c: Clock): string {
    ShowNat(c.hours) + ("小时" + (ShowNat(c.minutes) + ("分" + (ShowNat(c.seconds) + "秒"))))
  }

  /** Reads a bot uptime label back into its fields. */
  function ReadBotUptimeLabel(s: string): Option<Clock> {
    match ReadNat(s)
    case None => None
    case Some((h, s1)) =>
      match Expect("小时", s1)
      case None => None
      case Some(s2) =>
        match ReadNat(s2)
        case None => None
        case Some((m, s3)) =>
          match Expect("分", s3)
          case None => None
          case Some(s4) =>
            match ReadNat(s4)
            case None => None
            case Some((sec, s5)) =>
              if s5 == "秒" then Some(Clock(h, m, sec)) else None
  }

  /** Every clock, whatever its fields, reads back from its text. */
  lemma ClockTextRoundTrip(c: Clock)
    ensures ReadBotUptimeLabel(ClockText(c)) == Some(c)
  {
    var s5 := "秒";
    var s4 := ShowNat(c.seconds) + s5;
    var s3 := "分" + s4;
    var s2 := ShowNat(c.minutes) + s3;
    var s1 := "小时" + s2;
    assert ClockText(c) == ShowNat(c.hours) + s1;
    ReadNatShowNat(c.hours, s1);
    assert Expect("小时", s1) == Some(s2);
    ReadNatShowNat(c.minutes, s3);
    assert Expect("分", s3) == Some(s4);
    ReadNatShowNat(c.seconds, s5);
  }

  /** The bot uptime label, which reads back to the bot clock. */
  function BotUptimeLabel(elapsed: int): (r: string)
    ensures ReadBotUptimeLabel(r) == Some(BotUptime(elapsed))
  {
    ClockTextRoundTrip(BotUptime(elapsed));
    ClockText(BotUptime(elapsed))
  }

  /** Two running times print the same bot label exactly when they agree
      modulo one day. */
  lemma BotUptimeLabelModDay(a: int, b: int)
    ensures BotUptimeLabel(a) == BotUptimeLabel(b) <==> a % SecondsPerDay == b % SecondsPerDay
  {
    var ca, cb := BotUptime(a), BotUptime(b);
    if a % SecondsPerDay == b % SecondsPerDay {
      var t := a % SecondsPerDay;
      DivModUnique(t, 60, 60 * ca.hours + ca.minutes, ca.seconds);
      DivModUnique(t, 60, 60 * cb.hours + cb.minutes, cb.seconds);
      DivModUnique(t / 60, 60, ca.hours, ca.minutes);
      DivModUnique(t / 60, 60, cb.hours, cb.minutes);
    }
  }
}

=== FILE: fonts.dfy ===
/** Font resolution: a one-shot loader over a fixed list of candidate
    files, and the lazy accessor the drawing code calls for every text.
    Whether a file exists and whether the TrueType loader accepts it are
    questions to the file system, so they are oracles here. */
module Fonts {
  import opened Wrappers

  /** The candidates, in the order they are tried. */
  const Candidates: seq<string> := [
    "C:/Windows/Fonts/msyh.ttc",
    "/System/Library/Fonts/PingFang.ttc",
    "/usr/share/fonts/truetype/wqy/wqy-microhei.ttc",
    "/usr/share/fonts/opentype/noto/NotoSansCJK-Regular.ttc"
  ]

  const LoadSize: nat := 28

  /** A scalable face loaded from a file, or the built-in bitmap font,
      which has no `font_variant`. */
  datatype Font = TrueType(path: string, size: nat, index: nat) | Builtin

  datatype FontState = FontState(main: Option<Font>, bold: Option<Font>, loaded: bool)

  /** The plugin's state right after construction. */
  const Unloaded: FontState := FontState(None, None, false)

  /** What the plugin keeps true of its fields: once loaded, both fonts are
      set and are the same font. */
  predicate Valid(st: FontState) {
    st.loaded ==> st.main.Some? && st.bold == st.main
  }

  /** A candidate is taken when it exists and loads without error. */
  predicate Usable(path: string, present: string -> bool, loads: string -> bool) {
    present(path) && loads(path)
  }

  /** Index of the first usable path at or after `from`. */
  function FirstUsable(paths: seq<string>, from: nat, present: string -> bool, loads: string -> bool): (r: Option<nat>)
    requires from <= |paths|
    ensures r.Some? ==> from <= r.value < |paths| && Usable(paths[r.value], present, loads)
    ensures r.Some? ==> forall j :: from <= j < r.value ==> !Usable(paths[j], present, loads)
    ensures r.None? <==> forall j :: from <= j < |paths| ==> !Usable(paths[j], present, loads)
    decreases |paths| - from
  {
    if from == |paths| then None
    else if Usable(paths[from], present, loads) then Some(from)
    else FirstUsable(paths, from + 1, present, loads)
  }

  /** `_load_fonts`: a no-op once loaded; otherwise the first usable
      candidate at size 28, or the built-in font when none is usable. */
  function LoadFonts(st: FontState, present: string -> bool, loads: string -> bool): (r: FontState)
    ensures r.loaded
    ensures Valid(st) ==> Valid(r)
    ensures st.loaded ==> r == st
    ensures !st.loaded ==>
      (r.main == Some(Builtin) <==> forall j :: 0 <= j < |Candidates| ==> !Usable(Candidates[j], present, loads))
    ensures !st.loaded && r.main != Some(Builtin) ==>
      exists i :: 0 <= i < |Candidates| && r.main == Some(TrueType(Candidates[i], LoadSize, 0))
        && Usable(Candidates[i], present, loads)
        && forall j :: 0 <= j < i ==> !Usable(Candidates[j], present, loads)
  {
    if st.loaded then st
    else
      match FirstUsable(Candidates, 0, present, loads)
      case Some(i) =>
        var f := TrueType(Candidates[i], LoadSize, 0);
        FontState(Some(f), Some(f), true)
      case None =>
        FontState(Some(Builtin), Some(Builtin), true)
  }

  /** A second load changes nothing, whatever the file system says by then. */
  lemma LoadFontsIdempotent(st: FontState, present: string -> bool, loads: string -> bool,
                            present': string -> bool, loads': string -> bool)
    ensures LoadFonts(LoadFonts(st, present, loads), present', loads') == LoadFonts(st, present, loads)
  {
  }

  /** The font a candidate list picks is fixed by the first usable entry:
      paths after it, and whether they exist, do not matter. */
  lemma {:induction false} FirstUsableIgnoresLater(paths: seq<string>, from: nat, i: nat,
                                                   present: string -> bool, loads: string -> bool,
                                                   present': string -> bool, loads': string -> bool)
    requires from <= i < |paths|
    requires forall j :: from <= j <= i ==> Usable(paths[j], present, loads) == Usable(paths[j], present', loads')
    requires Usable(paths[i], present, loads)
    ensures FirstUsable(paths, from, present, loads) == FirstUsable(paths, from, present', loads')
    decreases i - from
  {
    if from < i && !Usable(paths[from], present, loads) {
      FirstUsableIgnoresLater(paths, from + 1, i, present, loads, present', loads');
    }
  }

  /** The three ends of `font_to_use.font_variant(size=...)`. A scalable
      font reopens its file, so it is `Resized` when the file is still
      usable and `Raised` (an `OSError`, which nothing catches) when it is
      not; a font without the method (the built-in bitmap font, or no font
      at all) gives `AttributeError`, which the caller catches. */
  datatype VariantOutcome = Resized(font: Font) | NoVariant | Raised

  /** `font_variant(size=...)` against the file system as it is now. */
  function Variant(f: Option<Font>, size: nat, present: string -> bool, loads: string -> bool): (r: VariantOutcome)
    ensures r.NoVariant? <==> f.None? || f.value.Builtin?
    ensures r.Raised? <==> f.Some? && f.value.TrueType? && !Usable(f.value.path, present, loads)
    ensures r.Resized? ==>
      (r.font.TrueType? && r.font.size == size && r.font.path == f.value.path && r.font.index == f.value.index)
  {
    match f
    case Some(TrueType(p, _, idx)) =>
      if Usable(p, present, loads) then Resized(TrueType(p, size, idx)) else Raised
    case _ => NoVariant
  }

  /** `_get_font(size, bold)`: load lazily, pick the bold or main font, and
      fall back to the main font when it cannot be resized. The result is
      `None` when the exception escapes; the oracles describe the file
      system at the time of the call. */
  function GetFont(st: FontState, size: nat, bold: bool, present: string -> bool, loads: string -> bool)
    : (r: (FontState, Option<Option<Font>>))
    ensures r.0.loaded
    ensures st.loaded ==> r.0 == st
    ensures !st.loaded ==> r.0 == LoadFonts(st, present, loads)
    ensures Valid(st) ==> Valid(r.0)
    ensures Valid(st) ==>
      (r.1.None? <==> r.0.main.value.TrueType? && !Usable(r.0.main.value.path, present, loads))
    ensures Valid(st) && r.0.main.value.TrueType? && Usable(r.0.main.value.path, present, loads) ==>
      r.1 == Some(Some(r.0.main.value.(size := size)))
    ensures Valid(st) && r.0.main == Some(Builtin) ==> r.1 == Some(Some(Builtin))
  {
    var st1 := if !st.loaded then LoadFonts(st, present, loads) else st;
    var toUse := if bold then st1.bold else st1.main;
    match Variant(toUse, size, present, loads)
    case Resized(f) => (st1, Some(Some(f)))
    case NoVariant => (st1, Some(st1.main))
    case Raised => (st1, None)
  }

  /** A lookup that itself loads the fonts cannot fail: the file it resizes
      is the one the same file system has just accepted. */
  lemma FirstLookupSucceeds(st: FontState, size: nat, bold: bool, present: string -> bool, loads: string -> bool)
    requires !st.loaded
    ensures GetFont(st, size, bold, present, loads).1.Some?
  {
  }

  /** In a valid state the bold request returns the same font as the
      regular one: the plugin loads a single face for both. */
  lemma BoldIsMain(st: FontState, size: nat, present: string -> bool, loads: string -> bool)
    requires Valid(st)
    ensures GetFont(st, size, true, present, loads) == GetFont(st, size, false, present, loads)
  {
  }

  /** Starting from construction, every run of loads and lookups keeps the
      fonts valid. */
  lemma ValidPreserved(st: FontState, size: nat, bold: bool, present: string -> bool, loads: string -> bool)
    requires Valid(st)
    ensures Valid(LoadFonts(st, present, loads))
    ensures Valid(GetFont(st, size, bold, present, loads).0)
  {
  }

  lemma UnloadedValid()
    ensures Valid(Unloaded) && !Unloaded.loaded
  {
  }
}

=== FILE: geometry.dfy ===
/** Points and axis-aligned boxes on the canvas, over exact reals. Pillow
    boxes are `[left, top, right, bottom]` with y growing downwards. */
module Geometry {

  datatype Point = Point(x: real, y: real)

  datatype Box = Box(left: real, top: real, right: real, bottom: real)

  predicate WellFormed(b: Box) {
    b.left <= b.right && b.top <= b.bottom
  }

  /** `inner` lies inside `outer` (borders may touch). */
  predicate Within(inner: Box, outer: Box) {
    outer.left <= inner.left && inner.right <= outer.right
    && outer.top <= inner.top && inner.bottom <= outer.bottom
  }

  /** The two boxes share no point. */
  predicate Apart(a: Box, b: Box) {
    a.right < b.left || b.right < a.left || a.bottom < b.top || b.bottom < a.top
  }

  predicate PointIn(p: Point, b: Box) {
    b.left <= p.x <= b.right && b.top <= p.y <= b.bottom
  }

  function Min(a: real, b: real): real { if a <= b then a else b }
  function Max(a: real, b: real): real { if a <= b then b else a }

  /** The smallest box holding both points. */
  function Span(p: Point, q: Point): (b: Box)
    ensures WellFormed(b) && PointIn(p, b) && PointIn(q, b)
    ensures forall o :: PointIn(p, o) && PointIn(q, o) ==> Within(b, o)
  {
    Box(Min(p.x, q.x), Min(p.y, q.y), Max(p.x, q.x), Max(p.y, q.y))
  }

  lemma WithinTransitive(a: Box, b: Box, c: Box)
    requires Within(a, b) && Within(b, c)
    ensures Within(a, c)
  {
  }

  lemma ApartOfWithin(a: Box, a': Box, b: Box, b': Box)
    requires Within(a, a') && Within(b, b') && Apart(a', b')
    ensures Apart(a, b)
  {
  }
}

=== FILE: wrappers.dfy ===
/** The optional-value type used wherever the plugin either has a value or
    caught an exception while computing it. */
module Wrappers {

  datatype Option<+T> = None | Some(value: T)
}
